=== FILE: README.md ===
# gostrap core packages in Dafny

This project models the sequential decision logic of four packages of the
gostrap Go service toolkit:

- **`pkg/errors`**: business error values. An `Error` record carries a code, a reason, a message, an HTTP status, string metadata and an optional cause. The package has copy-on-write builders, the `[code] reason: message[: cause]` rendering, and classifiers that look for the first business error along a Go error's unwrap chain. A Go `error` is the datatype `BizErrors.GoError`, which is one of:
  - nil;
  - a plain error;
  - a wrapper around an inner error;
  - a business `*Error`.

  `errors.As` then becomes the recursive function `BizErrors.As`. It is proved against an independent definition: the unwrap chain as a sequence, with the index of its first business error.
- **`pkg/graceful`**: the shutdown manager. It keeps a timeout and an append-only list of callbacks. `Shutdown` does the following:
  - takes a snapshot of the list;
  - launches the callbacks in reverse registration order under one deadline;
  - logs either "completed" or "timeout";
  - closes the buffered error channel and logs the errors it holds.

  There is also a first-call-wins process-wide hook with package functions that do nothing before setup. An *outcome oracle* replaces concurrency. For each snapshot position it gives the callback's result and the phase of `Shutdown` in which the callback returns:
  - before the wait ends (`InTime`);
  - after the wait but before the channel is closed (`BeforeClose`);
  - after the close while the process still runs (`AfterClose`);
  - only after the process has exited (`AfterExit`).

  The error channel is modelled as a Go buffered channel (`Graceful.Chan`): a capacity, a buffer and a closed flag. Each failing callback's send follows Go's rules: it is delivered, it blocks on a full channel, or it panics on a closed one. The crash in the findings below is derived from those rules.
- **`pkg/observability/health`**: the health-check handler. It has a checker registry and a ready flag. It folds the check results into an overall status, which is UP exactly when every check is UP. It maps that status to the HTTP codes of the liveness, readiness and startup probes. It also maps each checker's probe result to a `Check`. A checker is one of the package's three, or any other implementation of the `Checker` interface, whose answer is a whole `Check` given by the oracle. Results arrive over a channel in any order, so contracts speak of their multiset.
- **`pkg/log`**: logger configuration decisions. This covers level parsing and its default, the default configuration, the choice of encoder and output, first-call-wins `Init`, `With`, and the extraction of trace fields from a context.

Files: `wrappers.dfy` (`Option`), `durations.dfy` (`time.Second`), `decimal.dfy` (Go's `%d` and its inverse), `errors.dfy`, `shutdown.dfy`, `health.dfy`, `logger.dfy`.

The following are parameters of the model rather than part of it:
- the result of a callback, a ping or a custom check;
- the phase of `Shutdown` in which each callback returns;
- the OS signal that arrived;
- the context values.

Durations are nanosecond counts, as in Go's `time.Duration`.

## Model

| member | source | states |
|---|---|---|
| BizErrors.Unwrap | pkg/errors/errors.go:27-30 | a business error unwraps to its cause (nil when there is none); wrappers unwrap to their inner error |
| BizErrors.ChainFollowsUnwrap | pkg/errors/errors.go:27-30 | the chain of a non-nil error is the error itself followed by the chain of what `Unwrap` returns; a nil error has an empty chain |
| BizErrors.As | pkg/errors/errors.go:99-102 | `errors.As` with a `*Error` target finds nothing exactly when the unwrap chain holds no business error; otherwise it returns the business error at the first such chain position |
| BizErrors.ErrorString | pkg/errors/errors.go:20-25 | the rendering is `[code] reason: message` without a cause, followed by `": "` and the cause's rendering when there is a cause |
| BizErrors.CodeRecoverable | pkg/errors/errors.go:20-25 | the text between the leading `[` and the first `]` of any rendering reads back as the error's code, with or without a cause |
| Decimal.IntToStringRoundTrip | pkg/errors/errors.go:22-24 | the `%d` rendering of the code is read back as the same integer, negative codes included |
| BizErrors.WithCauseRendering | pkg/errors/errors.go:20-25 | attaching a non-nil cause extends the cause-free rendering by exactly `": "` and the cause's rendering |
| BizErrors.Is | pkg/errors/errors.go:33-39 | `e.Is(target)` holds exactly when the first business error in target's unwrap chain has e's code; it is false when the chain has none |
| BizErrors.IsComparesCodesOnly | pkg/errors/errors.go:33-39 | against a business error, `Is` is code equality; message, reason, status, metadata and cause are ignored |
| BizErrors.IsStopsAtFirstBiz | pkg/errors/errors.go:33-39 | a matching code deeper in the chain does not make `Is` hold when the first business error's code differs |
| BizErrors.WithCause | pkg/errors/errors.go:42-46 | the copy has the new cause and the receiver's code, message, status and reason; its metadata is an allocated map with the same entries |
| BizErrors.WithMetadata | pkg/errors/errors.go:49-56 | the copy's metadata is allocated, maps the key to the value and agrees with the receiver's metadata on every other key; all other fields are unchanged |
| BizErrors.WithMetadataOverwrite | pkg/errors/errors.go:49-56 | setting a key twice leaves only the second value |
| BizErrors.WithMetadataCommutes | pkg/errors/errors.go:49-56 | setting two different keys gives the same error in either order |
| BizErrors.Clone | pkg/errors/errors.go:59-72 | the clone equals the original field by field, and its metadata is an allocated map with the same entries, even when the original's map was nil |
| BizErrors.CloneIdempotent | pkg/errors/errors.go:59-72 | cloning a clone gives the same value |
| BizErrors.New | pkg/errors/errors.go:75-82 | the given code, reason and message, status 500, nil metadata, no cause |
| BizErrors.FromError | pkg/errors/errors.go:95-104 | nil gives nil; otherwise the first business error in the chain as it is; with none in the chain, a copy of the unknown error (10000, "UNKNOWN", 500, "unknown error") with the argument as cause and an allocated, empty metadata map |
| BizErrors.FromErrorIdempotent | pkg/errors/errors.go:95-104 | converting a `FromError` result again returns the same record |
| BizErrors.Code | pkg/errors/errors.go:107-116 | 0 for nil, the first business error's code, or 10000 when the chain has none |
| BizErrors.Reason | pkg/errors/errors.go:119-128 | "" for nil, the first business error's reason, or "UNKNOWN" when the chain has none |
| BizErrors.ClassifiersAgreeWithFromError | pkg/errors/errors.go:95-128 | for a non-nil error, `Code` and `Reason` are the code and reason of the record `FromError` returns |
| BizErrors.ClassifiersSeeThroughWrappers | pkg/errors/errors.go:107-128 | wrapping an error does not change its code or reason; `FromError` returns the same business error, or else an unknown error caused by the wrapper |
| BizErrors.IsNotFound | pkg/errors/errors.go:208-210 | holds exactly when the first business error in the chain has code 10002 |
| BizErrors.IsInvalidArgument | pkg/errors/errors.go:213-215 | holds exactly when the first business error in the chain has code 10001 |
| BizErrors.IsUnauthenticated | pkg/errors/errors.go:218-220 | holds exactly when the first business error in the chain has code 10005 |
| BizErrors.IsPermissionDenied | pkg/errors/errors.go:223-225 | holds exactly when the first business error in the chain has code 10004 |
| BizErrors.IsInternal | pkg/errors/errors.go:228-230 | holds exactly when the first business error in the chain has code 10011 |
| BizErrors.PredefinedSurviveDecoration | pkg/errors/errors.go:150-210 | a predefined error keeps its classification after a cause and metadata are added and it is wrapped; an internal error caused by a not-found error is internal, not not-found |
| Graceful.NewManager | pkg/graceful/shutdown.go:26-34 | the timeout is the given one when it is positive and 30 seconds otherwise, so it is always positive; there are no callbacks |
| Graceful.Register | pkg/graceful/shutdown.go:37-41 | exactly one callback is appended at the end; earlier entries, their order and the timeout are unchanged |
| Graceful.RegisterAllAppends | pkg/graceful/shutdown.go:37-41 | any series of registrations yields the earlier list followed by the registered callbacks, in order, with none lost or duplicated |
| Graceful.RegisterWithName | pkg/graceful/shutdown.go:44-49 | exactly one callback is appended: the name wrapper around the given function |
| Graceful.Run | pkg/graceful/shutdown.go:45-48 | a name wrapper logs "shutting down component" with its name before the inner callback runs; the callback's result passes through unchanged |
| Graceful.RegisterWithNameBehaviour | pkg/graceful/shutdown.go:44-49 | the added callback logs its component first, then everything `fn` logs, and returns what `fn` returns |
| Graceful.LaunchAll | pkg/graceful/shutdown.go:76-85 | the launch order is the snapshot reversed, position by position |
| Graceful.LaunchOrderIsPermutation | pkg/graceful/shutdown.go:76-85 | each snapshot entry is launched exactly once, and the last one registered is launched first |
| Graceful.MakeChan | pkg/graceful/shutdown.go:74 | a new channel has the given capacity, holds nothing and is open |
| Graceful.Send | pkg/graceful/shutdown.go:82 | `errChan <- err` panics exactly when the channel is closed and blocks exactly when it is open and full; otherwise the error is appended to the buffer |
| Graceful.Close | pkg/graceful/shutdown.go:101 | closing keeps the buffer and the capacity and marks the channel closed |
| Graceful.SendClosed | pkg/graceful/shutdown.go:79-84 | on a closed channel, the sends of one phase leave the channel as it is, never block, and panic exactly when some callback fails in that phase |
| Graceful.SendOpen | pkg/graceful/shutdown.go:79-84 | on an open channel, no send panics. When the buffer has room for every error of the phase, no send blocks and the buffer grows by exactly those errors, as a multiset |
| Graceful.SendsFitCapacity | pkg/graceful/shutdown.go:74-83 | every callback sends at most once, so the sends of all phases together never exceed the one slot per callback |
| Graceful.FillChannel | pkg/graceful/shutdown.go:74-85 | the channel up to the close has one slot per callback and holds exactly the errors of the callbacks that failed in time or before the close. None of those sends panicked or blocked, and room is left for every later send |
| Graceful.Drain | pkg/graceful/shutdown.go:101-104 | one "shutdown error" line per buffered error, in channel order |
| Graceful.Report | pkg/graceful/shutdown.go:94-104 | "completed" or "timeout" first, then one "shutdown error" line per drained error |
| Graceful.Shutdown | pkg/graceful/shutdown.go:63-105 | the code as written. The session works on a snapshot equal to the callback list and launches it in reverse. Its first line is "completed" exactly when every callback finished in time, and "timeout" otherwise. The errors logged are, as a multiset, those sent before the close, so there are at most as many as callbacks. No send blocks. A send on the closed channel panics, and this happens exactly when some callback fails after the close while the process runs |
| Graceful.LateFailureScenario | pkg/graceful/shutdown.go:79-101 | a single callback that returns "disconnect failed" after the close takes the code as written onto the timeout branch. There, its send at :82 on the channel closed at :101 panics |
| Graceful.BeforeCloseScenario | pkg/graceful/shutdown.go:79-104 | the same failure landing between the end of the wait and the close is buffered, logged after the timeout line, and crashes nothing |
| Graceful.ShutdownDrained | pkg/graceful/shutdown.go:63-105 | the corrected shutdown never closes the channel. It gives the same snapshot, launch order, first line and error multiset. Since every send finds the channel open with room to spare, no send panics or blocks |
| Graceful.FailuresNonEmpty | pkg/graceful/shutdown.go:81-83 | a phase sends some error exactly when some callback fails in that phase |
| Graceful.LateFailureMeansTimeout | pkg/graceful/shutdown.go:94-101 | a failure after the close always comes with the timeout branch |
| Graceful.NoFailuresNoErrors | pkg/graceful/shutdown.go:81-83 | when no callback fails, nothing reaches the error channel in any phase |
| Graceful.SingleFailure | pkg/graceful/shutdown.go:81-104 | with one callback failing in time and the rest succeeding in time, the wait completes and exactly that one error is in the channel |
| Graceful.FailuresMembers | pkg/graceful/shutdown.go:81-83 | an error is sent in a phase exactly when some callback returns it in that phase |
| Graceful.Wait | pkg/graceful/shutdown.go:52-60 | after the signal arrives, a line carrying its name is logged first. The full report of `Shutdown` as written follows: "completed" or "timeout", then one error line per drained error, these being the errors sent before the close. No send blocks, and the process crashes exactly when some callback fails after the close |
| Graceful.Setup | pkg/graceful/shutdown.go:116-121 | the first setup builds the manager from its timeout; later setups return the stored manager and change nothing |
| Graceful.SetupFirstCallWins | pkg/graceful/shutdown.go:116-121 | two setups return the same manager, which carries the first call's timeout |
| Graceful.PackageRegister | pkg/graceful/shutdown.go:124-128 | a no-op before setup; after setup, it registers on the shared manager |
| Graceful.PackageRegisterWithName | pkg/graceful/shutdown.go:131-135 | a no-op before setup; after setup, it does a named registration on the shared manager |
| Graceful.PackageWait | pkg/graceful/shutdown.go:138-142 | nothing happens before setup. After setup it delegates to the shared manager's `Wait` and carries its whole contract: the snapshot, the reverse launch order, completion exactly when every callback finishes in time, the signal line, "completed" or "timeout", one line per drained error, no blocked send, and a crash exactly when some callback fails after the close |
| Health.NewHandler | pkg/observability/health/health.go:53-59 | the given version, no checkers, a 5-second timeout, not ready |
| Health.Register | pkg/observability/health/health.go:62-66 | exactly one checker is appended; existing checkers, the version, the timeout and readiness are unchanged |
| Health.RegistrationsAccumulate | pkg/observability/health/health.go:62-66 | a series of registrations keeps every checker, in order |
| Health.SetReady | pkg/observability/health/health.go:69-73 | the ready flag becomes the argument; nothing else changes |
| Health.IsReadyIsLastSet | pkg/observability/health/health.go:69-80 | after any series of registrations, timeout changes and ready changes, `IsReady` returns the most recent `SetReady` value, or the initial flag when there was none |
| Health.SetTimeout | pkg/observability/health/health.go:83-85 | only the timeout changes |
| Health.CheckOf | pkg/observability/health/health.go:37-261 | a check is UP exactly when the checker succeeded. For the package's checkers it carries the checker's name and is never UNKNOWN. An error gives DOWN with the error's message and no data. Only a custom checker that succeeded attaches its data. Any other checker's check is exactly what it returned |
| Health.AllUpPermutation | pkg/observability/health/health.go:119-124 | whether every check is UP does not depend on the order the checks arrive in |
| Health.RunChecks | pkg/observability/health/health.go:88-127 | the result has one check per registered checker (as a multiset) and the handler's version. Its status is UP or DOWN. It is UP exactly when every check is UP, which holds exactly when every checker succeeded, and so always with no checkers. A foreign check that is UNKNOWN, or DOWN without an error, makes it DOWN |
| Health.WriteResponse | pkg/observability/health/health.go:164-172 | 200 exactly when the status is UP and 503 otherwise, with the result as the body |
| Health.Liveness | pkg/observability/health/health.go:130-135 | always runs the checks; the body's status is UP and the code 200 exactly when every checker succeeded, DOWN and 503 otherwise |
| Health.Readiness | pkg/observability/health/health.go:138-149 | when not ready, it answers 503 with a bare DOWN body and no checks; when ready, it behaves like liveness: UP and 200 exactly when every checker succeeded, DOWN and 503 otherwise |
| Health.Startup | pkg/observability/health/health.go:152-162 | answers 200/UP exactly when ready and 503/DOWN otherwise; never runs the checks |
| Log.ParseLevel | pkg/log/logger.go:162-177 | "debug", "warn", "error" and "fatal" map to their levels; every other string, including "info", "panic", "" and upper-case spellings, maps to info; it never yields panic or dpanic |
| Log.ParseLevelName | pkg/log/logger.go:162-177 | every level it can produce is read back from its lower-case name |
| Log.ParseLevelPanicNames | pkg/log/logger.go:174-176 | the names "panic" and "dpanic" fall into the default branch and give info |
| Log.DefaultConfig | pkg/log/logger.go:65-74 | level "info", format "json", no file, 100 MB, 3 backups, 7 days, compressed |
| Log.New | pkg/log/logger.go:96-160 | a missing configuration means the default one. The level is the parsed level. The console encoder is used exactly when the format is "console", JSON otherwise. A rotating file with the configuration's limits is added next to stdout exactly when the filename is non-empty. No context fields |
| Log.NewNilIsDefault | pkg/log/logger.go:96-99 | `New(nil)` equals `New(DefaultConfig())`, which logs JSON at info level to stdout only |
| Log.Init | pkg/log/logger.go:88-93 | the first call builds and stores the logger from its configuration; later calls return the stored one unchanged |
| Log.InitFirstCallWins | pkg/log/logger.go:88-93 | two `Init` calls return the same logger, built from the first call's configuration |
| Log.With | pkg/log/logger.go:199-205 | configuration, level, encoder and output are kept; the new fields follow the existing ones |
| Log.ExtractTraceFields | pkg/log/logger.go:225-239 | at most two fields: trace_id is present exactly when the context holds a string under "trace_id", and likewise span_id; trace_id comes first |
| Log.WithContext | pkg/log/logger.go:208-218 | the result is the receiver itself exactly when the context is nil or yields no trace field; otherwise the trace fields are appended, and the configuration is always kept |

## Left out

- Goroutines, `sync.WaitGroup`, mutexes and `sync.Once` are not modelled as such, and neither are shutdown's `done` channel or health's result channel. The model is sequential state plus an outcome oracle. The shutdown error channel is the one channel modelled (`Graceful.Chan`). The scheduler's interleavings are not modelled.
- Graceful.LaunchAll: all callbacks share one deadline context, which the model does not represent on its own. It appears only in the oracle, which judges every callback against the same end of the wait.
- `select` when both the done signal and the deadline are ready picks either at random. The oracle decides each callback's side of the deadline, so this tie is not modelled.
- Graceful.Shutdown: sends within one phase in launch order. The real channel order is completion order, which the oracle does not fix, so the contract promises only the multiset of drained errors. Also, a send that panics while the drain loop is still running would cut the log short; the model logs the full drain and does the late sends after it, so only the crash itself is promised for them.
- Graceful.ShutdownDrained: checks the late sends against the channel as the drain found it, which is the worst case for its capacity. It does not model the receives the drain makes.
- Graceful.Wait: blocking on SIGINT/SIGTERM/SIGQUIT is external; the arriving signal's name is a parameter.
- The "shutting down component" lines a named callback writes are modelled by `Graceful.Run`. They are not part of the shutdown session's log, because they come from the callbacks' own goroutines, interleaved at the scheduler's choice.
- `context.WithTimeout`, `time.Now`, deadlines and the `Time` field of a health check are omitted. Durations are unbounded integers, not 64-bit.
- Health.Status: Go's `Status` is a string type, so a foreign checker can report any text; that is `Other(text)`, which the fold at health.go:121 treats as not UP like UNKNOWN.
- Health.RunChecks: each probe must be of the kind its checker produces (`Health.Fits`): what a function returned for the package's checkers, a whole `Check` for any other. Gathers the checks in registry order, which is one valid arrival order; its contract promises only their multiset. `Check` waits for every checker even past its own timeout; the oracle supplies every checker's answer.
- JSON encoding, response headers and `http.ResponseWriter` are left out; only status codes and `Result` bodies are modelled. A check's `Data` values (`interface{}`) are kept as strings.
- `With` at logger.go:202 passes the field slice to the sugared logger's `With` without spreading it. zap then takes the single slice argument as a key without a value and writes an "Ignored key without a value." error entry on every `With` call, and on every `WithContext` call that finds a trace field. The model keeps only the fields added to the logger's context; that extra log entry is not modelled, as log output is not.
- `Newf` is left out, because it depends on `fmt.Sprintf` formatting.
- Unwrap chains of joined errors (`Unwrap() []error`) are not modelled, and neither are other error types' own `As` methods. A wrapper's rendering is taken as its own text.
- Graceful.Setup: in Go the `*Manager` it returns and the hook's manager are one object, so callbacks added later through package `Register` are seen by whoever holds the returned manager. The model returns a value, and that value does not follow later package registrations; the hook's manager is the current one.
- Reference identity is not modelled. "The receiver is unchanged" and "a fresh map" hold because every value is immutable; that the map is allocated is the `Entries` constructor, as opposed to `NilMap`.
- The zap and lumberjack internals are left out. That covers level filtering, encoding, caller and stack-trace options, `Sync`, and the `Debug`…`Fatal` methods, as well as the package-level log functions, which dereference a nil global logger before `Init`.
- pkg/observability/tracing/tracing.go, pkg/observability/metrics/metrics.go and pkg/conf/parse.go are not part of this model. They are library wrappers and I/O.

## Findings

The design goal is that no error in the shutdown subsystem is fatal by itself, and that callbacks still running at the deadline are simply abandoned. The code as written does not hold to this.

| source | as written | input that shows it | evidently intended | confidence | as-written member | corrected member |
|---|---|---|---|---|---|---|
| pkg/graceful/shutdown.go:79-101 | on the timeout branch, `errChan` is closed while callbacks launched at :79-84 may still be running; one that returns an error after the close, while the process still runs, sends on the closed channel at :82, which panics and crashes the process | one registered callback that ignores its context and returns "disconnect failed" after the 1-second deadline and after the close | results that arrive after the wait are dropped; the shutdown report is unchanged and the process does not crash | high, not executed | Graceful.LateFailureScenario | Graceful.ShutdownDrained |

=== FILE: decimal.dfy ===
/**
 * Decimal rendering of integers, as Go's `%d` verb prints an `int`, and the
 * parser that reads such a rendering back.
 */
module Decimal {
  import opened Wrappers

  predicate IsDigit(c: char) {
    '0' <= c <= '9'
  }

  predicate AllDigits(s: string) {
    forall i :: 0 <= i < |s| ==> IsDigit(s[i])
  }

  function DigitChar(d: nat): (c: char)
    requires d < 10
    ensures IsDigit(c)
  {
    ('0' as int + d) as char
  }

  function DigitValue(c: char): (d: nat)
    requires IsDigit(c)
    ensures d < 10
  {
    c as int - '0' as int
  }

  /** The digits of `n`, most significant first, without leading zeros. */
  function NatToString(n: nat): (s: string)
    ensures 1 <= |s|
    ensures AllDigits(s)
    ensures s[0] == '0' ==> n == 0
  {
    if n < 10 then [DigitChar(n)] else NatToString(n / 10) + [DigitChar(n % 10)]
  }

  /** `%d` of a Go int: a minus sign in front of the magnitude for negatives. */
  function IntToString(n: int): (s: string)
    ensures 1 <= |s|
    ensures forall i :: 0 <= i < |s| ==> s[i] != ']'
  {
    if n < 0 then "-" + NatToString(-n) else NatToString(n)
  }

  /** The value of a string of decimal digits (the empty string reads as 0). */
  function ParseDigits(s: string): nat
    requires AllDigits(s)
  {
    if |s| == 0 then 0 else ParseDigits(s[..|s| - 1]) * 10 + DigitValue(s[|s| - 1])
  }

  /** Reads an optionally negative decimal integer; None for anything else. */
  function ParseInt(s: string): Option<int> {
    if 1 <= |s| && s[0] == '-' then
      if 2 <= |s| && AllDigits(s[1..]) then var m: int := ParseDigits(s[1..]); Some(-m) else None
    else if 1 <= |s| && AllDigits(s) then Some(ParseDigits(s))
    else None
  }

  lemma DigitRoundTrip(d: nat)
    requires d < 10
    ensures DigitValue(DigitChar(d)) == d
  {
  }

  lemma {:induction false} ParseNatToString(n: nat)
    ensures ParseDigits(NatToString(n)) == n
  {
    var s := NatToString(n);
    if n < 10 {
      DigitRoundTrip(n);
      assert s[..|s| - 1] == [];
    } else {
      var p := NatToString(n / 10);
      assert s[..|s| - 1] == p;
      ParseNatToString(n / 10);
      DigitRoundTrip(n % 10);
    }
  }

  /** Every integer is read back from its own rendering. */
  lemma IntToStringRoundTrip(n: int)
    ensures ParseInt(IntToString(n)) == Some(n)
  {
    if n < 0 {
      var s := IntToString(n);
      assert s[1..] == NatToString(-n);
      ParseNatToString(-n);
    } else {
      ParseNatToString(n);
    }
  }
}

=== FILE: durations.dfy ===
/** Go `time.Duration` values, counted in nanoseconds. */
module Durations {
  const Second := 1_000_000_000
}

=== FILE: errors.dfy ===
/**
 * Business error values (package `errors`): an immutable error record with a
 * numeric code, a client-facing reason, a message, an HTTP status, a
 * string-to-string metadata map and an optional cause; copy-on-write builders;
 * the `[code] reason: message[: cause]` rendering; and the classifiers that
 * look for the first business error along a Go error's unwrap chain.
 *
 * A Go `error` interface value is modelled by `GoError`: nil, a plain error
 * that wraps nothing, a wrapper with its own rendering around an inner error,
 * or a business `*Error`.
 */
module BizErrors {
  import opened Wrappers
  import Decimal

  /** A Go map that is either nil or allocated; a nil map reads as empty. */
  datatype Metadata = NilMap | Entries(entries: map<string, string>)

  /** The business error record. */
  datatype Error = Error(
    code: int,
    message: string,
    httpCode: int,
    reason: string,
    metadata: Metadata,
    cause: GoError)

  /** A Go `error` value as far as `errors.As` and `%v` can observe it. */
  datatype GoError =
    | Nil
    | Plain(text: string)
    | Wrapped(text: string, inner: GoError)
    | Biz(err: Error)

  // HTTP status codes used by the predefined errors.
  const StatusBadRequest := 400
  const StatusUnauthorized := 401
  const StatusForbidden := 403
  const StatusNotFound := 404
  const StatusConflict := 409
  const StatusTooManyRequests := 429
  const StatusInternalServerError := 500
  const StatusServiceUnavailable := 503

  // Predefined business codes.
  const CodeSuccess := 0
  const CodeUnknown := 10000
  const CodeInvalidArgument := 10001
  const CodeNotFound := 10002
  const CodeAlreadyExists := 10003
  const CodePermissionDenied := 10004
  const CodeUnauthenticated := 10005
  const CodeResourceExhausted := 10006
  const CodeFailedPrecondition := 10007
  const CodeAborted := 10008
  const CodeOutOfRange := 10009
  const CodeUnimplemented := 10010
  const CodeInternal := 10011
  const CodeUnavailable := 10012
  const CodeDataLoss := 10013

  // Predefined errors; none of them carries metadata or a cause.
  const ErrUnknown := Error(CodeUnknown, "unknown error", StatusInternalServerError, "UNKNOWN", NilMap, Nil)
  const ErrInvalidArgument := Error(CodeInvalidArgument, "invalid argument", StatusBadRequest, "INVALID_ARGUMENT", NilMap, Nil)
  const ErrNotFound := Error(CodeNotFound, "resource not found", StatusNotFound, "NOT_FOUND", NilMap, Nil)
  const ErrAlreadyExists := Error(CodeAlreadyExists, "resource already exists", StatusConflict, "ALREADY_EXISTS", NilMap, Nil)
  const ErrPermissionDenied := Error(CodePermissionDenied, "permission denied", StatusForbidden, "PERMISSION_DENIED", NilMap, Nil)
  const ErrUnauthenticated := Error(CodeUnauthenticated, "unauthenticated", StatusUnauthorized, "UNAUTHENTICATED", NilMap, Nil)
  const ErrResourceExhausted := Error(CodeResourceExhausted, "resource exhausted", StatusTooManyRequests, "RESOURCE_EXHAUSTED", NilMap, Nil)
  const ErrInternal := Error(CodeInternal, "internal error", StatusInternalServerError, "INTERNAL", NilMap, Nil)
  const ErrUnavailable := Error(CodeUnavailable, "service unavailable", StatusServiceUnavailable, "UNAVAILABLE", NilMap, Nil)

  /** The entries a metadata map holds; reading a nil map gives none. */
  function EntriesOf(m: Metadata): map<string, string> {
    match m
    case NilMap => map[]
    case Entries(es) => es
  }

  // ---------------------------------------------------------------------------
  // Unwrap chains and errors.As
  // ---------------------------------------------------------------------------

  /** `Unwrap()`: a business error unwraps to its cause, a wrapper to its inner error. */
  function Unwrap(g: GoError): (r: GoError)
    ensures g.Nil? || g.Plain? ==> r.Nil?
    ensures g.Wrapped? ==> r == g.inner
    ensures g.Biz? ==> r == g.err.cause
  {
    match g
    case Nil => Nil
    case Plain(_) => Nil
    case Wrapped(_, inner) => inner
    case Biz(e) => e.cause
  }

  /** The non-nil errors met by repeatedly unwrapping `g`, `g` itself first. */
  function Chain(g: GoError): (c: seq<GoError>)
    ensures forall i :: 0 <= i < |c| ==> !c[i].Nil?
  {
    match g
    case Nil => []
    case Plain(_) => [g]
    case Wrapped(_, inner) => [g] + Chain(inner)
    case Biz(e) => [g] + Chain(e.cause)
  }

  /** The chain is `g` followed by the chain of what `g` unwraps to: `Chain` follows `Unwrap`. */
  lemma ChainFollowsUnwrap(g: GoError)
    ensures g.Nil? ==> Chain(g) == []
    ensures !g.Nil? ==> Chain(g) == [g] + Chain(Unwrap(g))
  {
  }

  /** Position `i` of `chain` is a business error and no earlier position is. */
  ghost predicate FirstBizAt(chain: seq<GoError>, i: int) {
    && 0 <= i < |chain|
    && chain[i].Biz?
    && forall j :: 0 <= j < i ==> !chain[j].Biz?
  }

  /** The chain holds some business error. */
  ghost predicate HasBiz(chain: seq<GoError>) {
    exists i :: 0 <= i < |chain| && chain[i].Biz?
  }

  /**
   * `errors.As(g, &target)` with a `*Error` target: the first business error
   * along the unwrap chain, if there is one.
   */
  function As(g: GoError): (r: Option<Error>)
    ensures r.None? <==> !HasBiz(Chain(g))
    ensures r.Some? ==> exists i :: FirstBizAt(Chain(g), i) && Chain(g)[i].err == r.value
  {
    match g
    case Nil => None
    case Plain(_) => None
    case Wrapped(_, inner) =>
      var r := As(inner);
      ChainStep(g, inner);
      r
    case Biz(e) =>
      assert FirstBizAt(Chain(g), 0);
      Some(e)
  }

  /** How the chain of a wrapper relates to the chain of the error it wraps. */
  lemma ChainStep(g: GoError, inner: GoError)
    requires g.Wrapped? && g.inner == inner
    ensures HasBiz(Chain(g)) <==> HasBiz(Chain(inner))
    ensures forall i :: FirstBizAt(Chain(inner), i) ==> FirstBizAt(Chain(g), i + 1)
  {
    var c := Chain(g);
    var ci := Chain(inner);
    assert c == [g] + ci;
    if HasBiz(c) {
      var i :| 0 <= i < |c| && c[i].Biz?;
      assert i > 0 && ci[i - 1] == c[i];
    }
    if HasBiz(ci) {
      var i :| 0 <= i < |ci| && ci[i].Biz?;
      assert c[i + 1] == ci[i];
    }
    forall i | FirstBizAt(ci, i)
      ensures FirstBizAt(c, i + 1)
    {
      assert c[i + 1] == ci[i];
      forall j | 0 <= j < i + 1
        ensures !c[j].Biz?
      {
        if j > 0 {
          assert c[j] == ci[j - 1];
        }
      }
    }
  }

  /** A ghost name for "the first business error of g's chain has code c". */
  ghost predicate FirstBizHasCode(g: GoError, c: int) {
    exists i :: FirstBizAt(Chain(g), i) && Chain(g)[i].err.code == c
  }

  // ---------------------------------------------------------------------------
  // Rendering
  // ---------------------------------------------------------------------------

  /** `[code] reason: message`, the part of the rendering that ignores the cause. */
  function Header(e: Error): string {
    "[" + Decimal.IntToString(e.code) + "] " + e.reason + ": " + e.message
  }

  /**
   * `%v` of a non-nil Go error: a business error renders through its `Error()`,
   * any other error renders as its own text.
   */
  function Render(g: GoError): string
    requires !g.Nil?
  {
    match g
    case Plain(t) => t
    case Wrapped(t, _) => t
    case Biz(e) => if e.cause.Nil? then Header(e) else Header(e) + ": " + Render(e.cause)
  }

  /** `(*Error).Error()`. */
  function ErrorString(e: Error): (s: string)
    ensures e.cause.Nil? ==> s == Header(e)
    ensures !e.cause.Nil? ==> s == Header(e) + ": " + Render(e.cause)
  {
    Render(Biz(e))
  }

  /** The text between a leading '[' and the first ']' after it, if any. */
  function CodeField(s: string): Option<string> {
    if 1 <= |s| && s[0] == '[' then UpTo(s[1..], ']') else None
  }

  /** The prefix of `s` before the first occurrence of `c`; None when `c` is absent. */
  function UpTo(s: string, c: char): Option<string> {
    if |s| == 0 then None
    else if s[0] == c then Some([])
    else match UpTo(s[1..], c)
      case None => None
      case Some(p) => Some([s[0]] + p)
  }

  lemma {:induction false} UpToPrefix(p: string, c: char, rest: string)
    requires forall i :: 0 <= i < |p| ==> p[i] != c
    ensures UpTo(p + [c] + rest, c) == Some(p)
  {
    if |p| == 0 {
      assert (p + [c] + rest)[0] == c;
    } else {
      var s := p + [c] + rest;
      assert s[1..] == p[1..] + [c] + rest;
      UpToPrefix(p[1..], c, rest);
      assert [p[0]] + p[1..] == p;
    }
  }

  /** The code of a business error is recovered from its rendering, cause or not. */
  lemma CodeRecoverable(e: Error)
    ensures CodeField(ErrorString(e)).Some?
    ensures Decimal.ParseInt(CodeField(ErrorString(e)).value) == Some(e.code)
  {
    var d := Decimal.IntToString(e.code);
    var s := ErrorString(e);
    var rest := if e.cause.Nil? then " " + e.reason + ": " + e.message
                else " " + e.reason + ": " + e.message + ": " + Render(e.cause);
    assert s == "[" + (d + [']'] + rest);
    assert s[1..] == d + [']'] + rest;
    UpToPrefix(d, ']', rest);
    Decimal.IntToStringRoundTrip(e.code);
  }

  // ---------------------------------------------------------------------------
  // Builders
  // ---------------------------------------------------------------------------

  /** `Clone`: a field-by-field copy whose metadata is a freshly allocated map with the same entries. */
  function Clone(e: Error): (r: Error)
    ensures r.code == e.code && r.message == e.message && r.httpCode == e.httpCode
    ensures r.reason == e.reason && r.cause == e.cause
    ensures r.metadata.Entries?
    ensures EntriesOf(r.metadata) == EntriesOf(e.metadata)
  {
    Error(e.code, e.message, e.httpCode, e.reason, Entries(EntriesOf(e.metadata)), e.cause)
  }

  /** `(*Error).WithCause`: a copy whose cause is `cause`; the receiver is a value and stays as it was. */
  function WithCause(e: Error, cause: GoError): (r: Error)
    ensures r.cause == cause
    ensures r.code == e.code && r.message == e.message && r.httpCode == e.httpCode && r.reason == e.reason
    ensures r.metadata.Entries? && EntriesOf(r.metadata) == EntriesOf(e.metadata)
  {
    Clone(e).(cause := cause)
  }

  /** `(*Error).WithMetadata`: a copy whose metadata is the receiver's with `key` set to `value`. */
  function WithMetadata(e: Error, key: string, value: string): (r: Error)
    ensures r.code == e.code && r.message == e.message && r.httpCode == e.httpCode
    ensures r.reason == e.reason && r.cause == e.cause
    ensures r.metadata.Entries?
    ensures key in EntriesOf(r.metadata) && EntriesOf(r.metadata)[key] == value
    ensures forall k :: k != key ==> (k in EntriesOf(r.metadata) <==> k in EntriesOf(e.metadata))
    ensures forall k :: k != key && k in EntriesOf(e.metadata) ==> EntriesOf(r.metadata)[k] == EntriesOf(e.metadata)[k]
  {
    var c := Clone(e);
    c.(metadata := Entries(EntriesOf(c.metadata)[key := value]))
  }

  /** `New`: status 500, nil metadata, no cause. */
  function New(code: int, reason: string, message: string): (r: Error)
    ensures r.code == code && r.reason == reason && r.message == message
    ensures r.httpCode == StatusInternalServerError
    ensures r.metadata == NilMap && r.cause == Nil
  {
    Error(code, message, StatusInternalServerError, reason, NilMap, Nil)
  }

  /** Cloning a clone changes nothing. */
  lemma CloneIdempotent(e: Error)
    ensures Clone(Clone(e)) == Clone(e)
  {
  }

  /** Setting the same key twice keeps only the second value. */
  lemma WithMetadataOverwrite(e: Error, key: string, v1: string, v2: string)
    ensures WithMetadata(WithMetadata(e, key, v1), key, v2) == WithMetadata(e, key, v2)
  {
  }

  /** Setting two different keys gives the same error in either order. */
  lemma WithMetadataCommutes(e: Error, k1: string, v1: string, k2: string, v2: string)
    requires k1 != k2
    ensures WithMetadata(WithMetadata(e, k1, v1), k2, v2) == WithMetadata(WithMetadata(e, k2, v2), k1, v1)
  {
  }

  /** Attaching a cause extends the rendering by `": " + cause` and leaves the header alone. */
  lemma WithCauseRendering(e: Error, cause: GoError)
    requires !cause.Nil?
    ensures ErrorString(WithCause(e, cause)) == ErrorString(e.(cause := Nil)) + ": " + Render(cause)
  {
  }

  // ---------------------------------------------------------------------------
  // Classification
  // ---------------------------------------------------------------------------

  /** `(*Error).Is(target)`: the first business error in target's chain has the receiver's code. */
  function Is(e: Error, target: GoError): (r: bool)
    ensures r <==> FirstBizHasCode(target, e.code)
  {
    match As(target)
    case None => false
    case Some(t) =>
      ghost var i :| FirstBizAt(Chain(target), i) && Chain(target)[i].err == t;
      assert forall j :: FirstBizAt(Chain(target), j) ==> j == i;
      e.code == t.code
  }

  /** `Is` looks only at codes: message, reason, status, metadata and cause of either side do not matter. */
  lemma IsComparesCodesOnly(e: Error, t: Error)
    ensures Is(e, Biz(t)) <==> e.code == t.code
  {
  }

  /**
   * `Is` consults only the first business error it meets: a matching code
   * further down the chain does not make it hold.
   */
  lemma IsStopsAtFirstBiz(e: Error, outer: Error)
    requires outer.code != e.code
    ensures !Is(e, Biz(WithCause(outer, Biz(e))))
  {
  }

  /** `FromError`: nil stays nil, the first business error is returned as is, anything else becomes ErrUnknown caused by it. */
  function FromError(g: GoError): (r: Option<Error>)
    ensures g.Nil? <==> r.None?
    ensures HasBiz(Chain(g)) ==> exists i :: FirstBizAt(Chain(g), i) && r == Some(Chain(g)[i].err)
    ensures !g.Nil? && !HasBiz(Chain(g)) ==>
      r.Some? && r.value.code == CodeUnknown && r.value.reason == "UNKNOWN" && r.value.cause == g
      && r.value.httpCode == StatusInternalServerError && r.value.message == "unknown error"
      && r.value.metadata == Entries(map[])
  {
    if g.Nil? then None
    else match As(g)
      case Some(e) => Some(e)
      case None => Some(WithCause(ErrUnknown, g))
  }

  /** `Code`: 0 for nil, the first business error's code, otherwise the unknown code. */
  function Code(g: GoError): (r: int)
    ensures g.Nil? ==> r == CodeSuccess
    ensures HasBiz(Chain(g)) ==> FirstBizHasCode(g, r)
    ensures !g.Nil? && !HasBiz(Chain(g)) ==> r == CodeUnknown
  {
    if g.Nil? then 0
    else match As(g)
      case Some(e) => e.code
      case None => ErrUnknown.code
  }

  /** `Reason`: "" for nil, the first business error's reason, otherwise "UNKNOWN". */
  function Reason(g: GoError): (r: string)
    ensures g.Nil? ==> r == ""
    ensures HasBiz(Chain(g)) ==> exists i :: FirstBizAt(Chain(g), i) && Chain(g)[i].err.reason == r
    ensures !g.Nil? && !HasBiz(Chain(g)) ==> r == "UNKNOWN"
  {
    if g.Nil? then ""
    else match As(g)
      case Some(e) => e.reason
      case None => ErrUnknown.reason
  }

  /** `Code` and `Reason` read the same record that `FromError` returns. */
  lemma ClassifiersAgreeWithFromError(g: GoError)
    requires !g.Nil?
    ensures Code(g) == FromError(g).value.code
    ensures Reason(g) == FromError(g).value.reason
  {
  }

  /** Converting the result of `FromError` again gives the same record back. */
  lemma FromErrorIdempotent(g: GoError)
    requires !g.Nil?
    ensures FromError(Biz(FromError(g).value)) == FromError(g)
  {
  }

  /** The classifiers see through any number of plain wrappers. */
  lemma ClassifiersSeeThroughWrappers(text: string, g: GoError)
    requires !g.Nil?
    ensures Code(Wrapped(text, g)) == Code(g)
    ensures Reason(Wrapped(text, g)) == Reason(g)
    ensures FromError(Wrapped(text, g)) == (if As(g).Some? then FromError(g) else Some(WithCause(ErrUnknown, Wrapped(text, g))))
  {
  }

  // The Is* predicates compare Code(err) with one predefined code.

  function IsNotFound(g: GoError): (r: bool)
    ensures r <==> FirstBizHasCode(g, CodeNotFound)
  {
    Code(g) == CodeNotFound
  }

  function IsInvalidArgument(g: GoError): (r: bool)
    ensures r <==> FirstBizHasCode(g, CodeInvalidArgument)
  {
    Code(g) == CodeInvalidArgument
  }

  function IsUnauthenticated(g: GoError): (r: bool)
    ensures r <==> FirstBizHasCode(g, CodeUnauthenticated)
  {
    Code(g) == CodeUnauthenticated
  }

  function IsPermissionDenied(g: GoError): (r: bool)
    ensures r <==> FirstBizHasCode(g, CodePermissionDenied)
  {
    Code(g) == CodePermissionDenied
  }

  function IsInternal(g: GoError): (r: bool)
    ensures r <==> FirstBizHasCode(g, CodeInternal)
  {
    Code(g) == CodeInternal
  }

  /** A predefined error keeps its classification after a cause and metadata are attached and it is wrapped. */
  lemma PredefinedSurviveDecoration(text: string, key: string, value: string, cause: GoError)
    ensures IsNotFound(Wrapped(text, Biz(WithMetadata(WithCause(ErrNotFound, cause), key, value))))
    ensures IsInternal(Biz(WithCause(ErrInternal, Biz(ErrNotFound))))
    ensures !IsNotFound(Biz(WithCause(ErrInternal, Biz(ErrNotFound))))
  {
    var decorated := WithMetadata(WithCause(ErrNotFound, cause), key, value);
    assert As(Wrapped(text, Biz(decorated))) == As(Biz(decorated)) == Some(decorated);
  }
}

=== FILE: health.dfy ===
/**
 * Health checks (package `health`): a handler keeps a version string, a
 * registry of checkers, a per-run timeout and a ready flag. A run asks every
 * checker concurrently and folds the answers, which arrive over a channel in
 * any order, into one overall status; the probe endpoints turn that status
 * into an HTTP code.
 *
 * What a checker's function returns when it is asked (a ping error, or the
 * data and error of a custom check), and the whole answer of a checker from
 * outside the package, is external and given as a `Probe` per registered
 * checker. Check timestamps are left out.
 */
module Health {
  import opened Wrappers
  import Durations

  const DefaultTimeout := 5 * Durations.Second

  const StatusOK := 200
  const StatusServiceUnavailable := 503

  /** `Status` is a string type: the three named values, or any other text a foreign checker reports. */
  datatype Status = Up | Down | Unknown | Other(text: string)

  /** The data map of a check; its values are kept as their rendering. */
  datatype Data = NoData | Data(entries: map<string, string>)

  datatype Check = Check(name: string, status: Status, data: Data, error: string)

  datatype Result = Result(status: Status, version: string, checks: seq<Check>)

  /**
   * A registered checker: one of the package's three, or any other
   * implementation of the `Checker` interface, whose `Check` is not known.
   */
  datatype Checker =
    | DatabaseChecker(name: string)
    | RedisChecker(name: string)
    | CustomChecker(name: string)
    | ForeignChecker(name: string)

  /**
   * What asking a checker gave: for the package's checkers, what their function
   * returned (data, used by custom checkers only, and an optional error
   * message); for any other checker, the whole `Check` its method returned.
   */
  datatype Probe = Probe(data: Data, err: Option<string>) | Answer(check: Check)

  /** The probe is of the kind the checker's `Check` produces. */
  predicate Fits(c: Checker, p: Probe) {
    c.ForeignChecker? <==> p.Answer?
  }

  /** The checker reported UP: no error from the package's checkers, an UP check from any other. */
  predicate Succeeded(p: Probe) {
    match p
    case Probe(_, err) => err.None?
    case Answer(check) => check.status == Up
  }

  datatype Handler = Handler(version: string, checkers: seq<Checker>, timeout: int, ready: bool)

  /** An HTTP answer: the status code and the JSON body. */
  datatype Response = Response(code: int, body: Result)

  // ---------------------------------------------------------------------------
  // Handler state
  // ---------------------------------------------------------------------------

  /** `NewHandler`: not ready, five-second timeout, no checkers. */
  function NewHandler(version: string): (h: Handler)
    ensures h.version == version && h.checkers == [] && h.timeout == 5 * Durations.Second && !h.ready
  {
    Handler(version, [], DefaultTimeout, false)
  }

  /** `Register`: appends one checker and keeps the existing ones in order. */
  function Register(h: Handler, c: Checker): (r: Handler)
    ensures |r.checkers| == |h.checkers| + 1
    ensures r.checkers[..|h.checkers|] == h.checkers && r.checkers[|h.checkers|] == c
    ensures r.version == h.version && r.timeout == h.timeout && r.ready == h.ready
  {
    h.(checkers := h.checkers + [c])
  }

  function SetReady(h: Handler, ready: bool): (r: Handler)
    ensures r.ready == ready
    ensures r.version == h.version && r.checkers == h.checkers && r.timeout == h.timeout
  {
    h.(ready := ready)
  }

  function IsReady(h: Handler): bool {
    h.ready
  }

  function SetTimeout(h: Handler, timeout: int): (r: Handler)
    ensures r.timeout == timeout
    ensures r.version == h.version && r.checkers == h.checkers && r.ready == h.ready
  {
    h.(timeout := timeout)
  }

  /** The state-changing calls a handler receives over its lifetime. */
  datatype Op = RegisterOp(c: Checker) | SetReadyOp(ready: bool) | SetTimeoutOp(timeout: int)

  function Apply(h: Handler, ops: seq<Op>): Handler
    decreases |ops|
  {
    if |ops| == 0 then h
    else
      var h' := match ops[0]
        case RegisterOp(c) => Register(h, c)
        case SetReadyOp(b) => SetReady(h, b)
        case SetTimeoutOp(t) => SetTimeout(h, t);
      Apply(h', ops[1..])
  }

  /** The ready flag last set in `ops`, or `initial` when `ops` never sets it. */
  function LastReady(ops: seq<Op>, initial: bool): bool
    decreases |ops|
  {
    if |ops| == 0 then initial
    else if ops[|ops| - 1].SetReadyOp? then ops[|ops| - 1].ready
    else LastReady(ops[..|ops| - 1], initial)
  }

  /** `IsReady` reports the most recent `SetReady`, whatever else happened in between. */
  lemma {:induction false} IsReadyIsLastSet(h: Handler, ops: seq<Op>)
    ensures IsReady(Apply(h, ops)) == LastReady(ops, h.ready)
    decreases |ops|
  {
    if |ops| > 0 {
      var h' := match ops[0]
        case RegisterOp(c) => Register(h, c)
        case SetReadyOp(b) => SetReady(h, b)
        case SetTimeoutOp(t) => SetTimeout(h, t);
      IsReadyIsLastSet(h', ops[1..]);
      LastReadyShift(ops, h.ready);
    }
  }

  /** Reading the last set flag after the first op equals reading it over all ops. */
  lemma {:induction false} LastReadyShift(ops: seq<Op>, initial: bool)
    requires |ops| > 0
    ensures LastReady(ops[1..], if ops[0].SetReadyOp? then ops[0].ready else initial) == LastReady(ops, initial)
    decreases |ops|
  {
    if |ops| > 1 {
      assert ops[1..][..|ops[1..]| - 1] == ops[..|ops| - 1][1..];
      LastReadyShift(ops[..|ops| - 1], initial);
    }
  }

  /** Registrations keep every checker ever registered, in order. */
  lemma {:induction false} RegistrationsAccumulate(h: Handler, cs: seq<Checker>)
    ensures Apply(h, seq(|cs|, i requires 0 <= i < |cs| => RegisterOp(cs[i]))).checkers == h.checkers + cs
    decreases |cs|
  {
    var ops := seq(|cs|, i requires 0 <= i < |cs| => RegisterOp(cs[i]));
    if |cs| > 0 {
      assert ops[1..] == seq(|cs[1..]|, i requires 0 <= i < |cs[1..]| => RegisterOp(cs[1..][i]));
      RegistrationsAccumulate(Register(h, cs[0]), cs[1..]);
      assert h.checkers + [cs[0]] + cs[1..] == h.checkers + cs;
    }
  }

  // ---------------------------------------------------------------------------
  // Checkers
  // ---------------------------------------------------------------------------

  /**
   * `Check` of one checker. For the package's checkers an error gives DOWN
   * with the error's message; success gives UP, and only a custom checker
   * attaches its data. Any other checker's check is whatever it returned.
   */
  function CheckOf(c: Checker, p: Probe): (r: Check)
    requires Fits(c, p)
    ensures r.status == Up <==> Succeeded(p)
    ensures c.ForeignChecker? ==> r == p.check
    ensures !c.ForeignChecker? ==> r.name == c.name && r.status != Unknown
    ensures !c.ForeignChecker? && p.err.Some? ==> r.error == p.err.value && r.data == NoData
    ensures !c.ForeignChecker? && p.err.None? ==> r.error == ""
    ensures !c.ForeignChecker? && r.data != NoData ==> c.CustomChecker? && p.err.None? && r.data == p.data
    ensures c.CustomChecker? && p.err.None? ==> r.data == p.data
  {
    match p
    case Answer(check) => check
    case Probe(data, err) =>
      match err
      case Some(msg) => Check(c.name, Down, NoData, msg)
      case None =>
        if c.CustomChecker? then Check(c.name, Up, data, "") else Check(c.name, Up, NoData, "")
  }

  /** Every check is UP. */
  predicate AllUp(checks: seq<Check>) {
    forall k :: 0 <= k < |checks| ==> checks[k].status == Up
  }

  /** The checks for the registry, in registration order. */
  function ExpectedChecks(checkers: seq<Checker>, probes: seq<Probe>): (r: seq<Check>)
    requires |probes| == |checkers|
    requires forall i :: 0 <= i < |probes| ==> Fits(checkers[i], probes[i])
    ensures |r| == |checkers|
    ensures forall i :: 0 <= i < |r| ==> r[i] == CheckOf(checkers[i], probes[i])
  {
    seq(|checkers|, i requires 0 <= i < |checkers| => CheckOf(checkers[i], probes[i]))
  }

  /** Whether every check is UP does not depend on the order the checks arrive in. */
  lemma AllUpPermutation(a: seq<Check>, b: seq<Check>)
    requires multiset(a) == multiset(b)
    ensures AllUp(a) <==> AllUp(b)
  {
    if AllUp(b) {
      forall k | 0 <= k < |a|
        ensures a[k].status == Up
      {
        assert a[k] in multiset(b);
      }
    }
    if AllUp(a) {
      forall k | 0 <= k < |b|
        ensures b[k].status == Up
      {
        assert b[k] in multiset(a);
      }
    }
  }

  /**
   * `Check`: one check per registered checker and the handler's version. The
   * checks are gathered in the order they arrive, which is not fixed, so only
   * their multiset is promised; the overall status starts UP and turns DOWN at
   * the first check that is not UP.
   */
  method RunChecks(h: Handler, probes: seq<Probe>) returns (r: Result)
    requires |probes| == |h.checkers|
    requires forall i :: 0 <= i < |probes| ==> Fits(h.checkers[i], probes[i])
    ensures r.version == h.version
    ensures |r.checks| == |h.checkers|
    ensures multiset(r.checks) == multiset(ExpectedChecks(h.checkers, probes))
    ensures r.status == Up || r.status == Down
    ensures r.status == Up <==> AllUp(r.checks)
    ensures r.status == Up <==> forall i :: 0 <= i < |probes| ==> Succeeded(probes[i])
  {
    var checks: seq<Check> := [];
    var status := Up;
    var i := 0;
    while i < |h.checkers|
      invariant 0 <= i <= |h.checkers|
      invariant checks == ExpectedChecks(h.checkers, probes)[..i]
      invariant status == Up || status == Down
      invariant status == Up <==> AllUp(checks)
      invariant status == Up <==> forall j :: 0 <= j < i ==> Succeeded(probes[j])
    {
      var check := CheckOf(h.checkers[i], probes[i]);
      checks := checks + [check];
      if check.status != Up {
        status := Down;
      }
      i := i + 1;
    }
    assert checks == ExpectedChecks(h.checkers, probes);
    r := Result(status, h.version, checks);
  }

  /** `writeResponse`: 200 exactly when the status is UP, 503 otherwise; the body is the result. */
  function WriteResponse(result: Result): (resp: Response)
    ensures resp.body == result
    ensures resp.code == StatusOK <==> result.status == Up
    ensures resp.code == StatusOK || resp.code == StatusServiceUnavailable
  {
    if result.status != Up then Response(StatusServiceUnavailable, result) else Response(StatusOK, result)
  }

  /** The body the readiness and startup probes send while not ready: DOWN, no version, no checks. */
  const NotReady := Response(StatusServiceUnavailable, Result(Down, "", []))

  /** The liveness probe: always runs the checks. */
  method Liveness(h: Handler, probes: seq<Probe>) returns (resp: Response)
    requires |probes| == |h.checkers|
    requires forall i :: 0 <= i < |probes| ==> Fits(h.checkers[i], probes[i])
    ensures resp.code == StatusOK <==> forall i :: 0 <= i < |probes| ==> Succeeded(probes[i])
    ensures resp.code == StatusOK || resp.code == StatusServiceUnavailable
    ensures resp.body.status == (if forall i :: 0 <= i < |probes| ==> Succeeded(probes[i]) then Up else Down)
    ensures resp.body.version == h.version
    ensures multiset(resp.body.checks) == multiset(ExpectedChecks(h.checkers, probes))
  {
    var result := RunChecks(h, probes);
    resp := WriteResponse(result);
  }

  /** The readiness probe: 503/DOWN without running any check while not ready, otherwise as liveness. */
  method Readiness(h: Handler, probes: seq<Probe>) returns (resp: Response)
    requires |probes| == |h.checkers|
    requires forall i :: 0 <= i < |probes| ==> Fits(h.checkers[i], probes[i])
    ensures !IsReady(h) ==> resp == NotReady
    ensures IsReady(h) ==> (resp.code == StatusOK <==> forall i :: 0 <= i < |probes| ==> Succeeded(probes[i]))
    ensures IsReady(h) ==> resp.body.status == (if forall i :: 0 <= i < |probes| ==> Succeeded(probes[i]) then Up else Down)
    ensures IsReady(h) ==> resp.body.version == h.version
    ensures IsReady(h) ==> multiset(resp.body.checks) == multiset(ExpectedChecks(h.checkers, probes))
  {
    if !IsReady(h) {
      resp := NotReady;
      return;
    }
    resp := Liveness(h, probes);
  }

  /** The startup probe: 503/DOWN while not ready, 200/UP once ready; it never runs the checks. */
  function Startup(h: Handler): (resp: Response)
    ensures resp.code == StatusOK <==> IsReady(h)
    ensures resp.body.checks == [] && resp.body.version == ""
    ensures resp.body.status == (if IsReady(h) then Up else Down)
  {
    if !IsReady(h) then NotReady else Response(StatusOK, Result(Up, "", []))
  }
}

=== FILE: logger.dfy ===
/**
 * Logger configuration (package `log`): which level, encoder and output a
 * configuration selects, the process-wide logger that the first `Init`
 * builds, and the trace fields a request context contributes.
 *
 * The zap and lumberjack machinery behind a logger is reduced to the
 * decisions made from the configuration; a logger value records them
 * together with the configuration it was built from and its context fields.
 */
module Log {
  import opened Wrappers

  /** zap's levels, least to most severe. */
  datatype Level = DebugLevel | InfoLevel | WarnLevel | ErrorLevel | DPanicLevel | PanicLevel | FatalLevel

  /** zap's lower-case name of a level. */
  function LevelName(l: Level): string {
    match l
    case DebugLevel => "debug"
    case InfoLevel => "info"
    case WarnLevel => "warn"
    case ErrorLevel => "error"
    case DPanicLevel => "dpanic"
    case PanicLevel => "panic"
    case FatalLevel => "fatal"
  }

  /**
   * `parseLevel`: the five exact lower-case names it knows map to their level;
   * any other text, including "panic", "dpanic", "" and other spellings, means info.
   */
  function ParseLevel(s: string): (l: Level)
    ensures l != DPanicLevel && l != PanicLevel
    ensures l == DebugLevel <==> s == "debug"
    ensures l == WarnLevel <==> s == "warn"
    ensures l == ErrorLevel <==> s == "error"
    ensures l == FatalLevel <==> s == "fatal"
    ensures l == InfoLevel <==> s != "debug" && s != "warn" && s != "error" && s != "fatal"
  {
    match s
    case "debug" => DebugLevel
    case "info" => InfoLevel
    case "warn" => WarnLevel
    case "error" => ErrorLevel
    case "fatal" => FatalLevel
    case _ => InfoLevel
  }

  /** Every level `parseLevel` can produce is read back from its own name. */
  lemma ParseLevelName(l: Level)
    requires l != DPanicLevel && l != PanicLevel
    ensures ParseLevel(LevelName(l)) == l
  {
  }

  /** Levels `parseLevel` cannot produce fall back to info when their name is parsed. */
  lemma ParseLevelPanicNames()
    ensures ParseLevel(LevelName(PanicLevel)) == InfoLevel
    ensures ParseLevel(LevelName(DPanicLevel)) == InfoLevel
  {
  }

  datatype Config = Config(
    level: string,
    format: string,
    filename: string,
    maxSize: int,
    maxBackups: int,
    maxAge: int,
    compress: bool)

  /** `DefaultConfig`: info level, JSON, 100 MB files, 3 backups, 7 days, compressed, no file. */
  function DefaultConfig(): (c: Config)
    ensures c.level == "info" && c.format == "json" && c.filename == ""
    ensures c.maxSize == 100 && c.maxBackups == 3 && c.maxAge == 7 && c.compress
  {
    Config("info", "json", "", 100, 3, 7, true)
  }

  datatype Encoder = ConsoleEncoder | JsonEncoder

  /** The settings handed to the rotating file writer. */
  datatype Rotation = Rotation(filename: string, maxSize: int, maxBackups: int, maxAge: int, compress: bool)

  /** Where entries go: standard output alone, or standard output and a rotating file. */
  datatype Sink = Stdout | StdoutAndFile(file: Rotation)

  datatype Field = Field(key: string, value: string)

  datatype Logger = Logger(level: Level, encoder: Encoder, sink: Sink, config: Config, fields: seq<Field>)

  /**
   * `New`: a missing configuration means the default one; "console" picks the
   * console encoder and every other format JSON; a non-empty filename adds a
   * rotating file next to standard output.
   */
  function New(cfg: Option<Config>): (l: Logger)
    ensures cfg.None? ==> l.config == DefaultConfig()
    ensures cfg.Some? ==> l.config == cfg.value
    ensures l.level == ParseLevel(l.config.level)
    ensures l.encoder == ConsoleEncoder <==> l.config.format == "console"
    ensures l.sink.StdoutAndFile? <==> l.config.filename != ""
    ensures l.sink.StdoutAndFile? ==> l.sink.file == Rotation(l.config.filename, l.config.maxSize,
                                                             l.config.maxBackups, l.config.maxAge, l.config.compress)
    ensures l.fields == []
  {
    var c := cfg.GetOr(DefaultConfig());
    var encoder := if c.format == "console" then ConsoleEncoder else JsonEncoder;
    var sink := if c.filename != "" then StdoutAndFile(Rotation(c.filename, c.maxSize, c.maxBackups, c.maxAge, c.compress))
                else Stdout;
    Logger(ParseLevel(c.level), encoder, sink, c, [])
  }

  /** `New(nil)` is `New(DefaultConfig())`, which logs JSON at info level to standard output only. */
  lemma NewNilIsDefault()
    ensures New(None) == New(Some(DefaultConfig()))
    ensures New(None).level == InfoLevel && New(None).encoder == JsonEncoder && New(None).sink == Stdout
  {
  }

  /** The process-wide logger: none until the first `Init`. */
  datatype Global = Global(logger: Option<Logger>)

  /** `Init`: the first call builds the global logger from its configuration; later calls return it. */
  function Init(g: Global, cfg: Option<Config>): (r: (Global, Logger))
    ensures r.0.logger == Some(r.1)
    ensures g.logger.Some? ==> r.0 == g && r.1 == g.logger.value
    ensures g.logger.None? ==> r.1 == New(cfg)
  {
    match g.logger
    case Some(l) => (g, l)
    case None =>
      var l := New(cfg);
      (Global(Some(l)), l)
  }

  /** Two `Init` calls return the same logger, built from the first call's configuration. */
  lemma InitFirstCallWins(c1: Option<Config>, c2: Option<Config>)
    ensures var (g1, l1) := Init(Global(None), c1);
      var (g2, l2) := Init(g1, c2);
      l1 == l2 && g2 == g1 && l2.config == New(c1).config
  {
  }

  /** `With`: the same configuration and outputs, with `fields` added to the context. */
  function With(l: Logger, fields: seq<Field>): (r: Logger)
    ensures r.config == l.config && r.level == l.level && r.encoder == l.encoder && r.sink == l.sink
    ensures |r.fields| == |l.fields| + |fields|
    ensures r.fields[..|l.fields|] == l.fields && r.fields[|l.fields|..] == fields
  {
    l.(fields := l.fields + fields)
  }

  /** A context value as `ctx.Value` returns it: a string, or something of another type. */
  datatype CtxValue = StrValue(s: string) | OtherValue

  /** A request context as a map from key to value; a missing key reads as nil. */
  datatype Context = Context(values: map<string, CtxValue>)

  /** The string stored under `key`, if the value there is a string. */
  function StringValue(ctx: Context, key: string): Option<string> {
    if key in ctx.values && ctx.values[key].StrValue? then Some(ctx.values[key].s) else None
  }

  /** `extractTraceFields`: trace_id then span_id, each only when present as a string. */
  function ExtractTraceFields(ctx: Context): (fs: seq<Field>)
    ensures |fs| <= 2
    ensures forall i :: 0 <= i < |fs| ==> fs[i].key == "trace_id" || fs[i].key == "span_id"
    ensures forall id :: Field("trace_id", id) in fs <==> StringValue(ctx, "trace_id") == Some(id)
    ensures forall id :: Field("span_id", id) in fs <==> StringValue(ctx, "span_id") == Some(id)
    ensures |fs| == 2 ==> fs[0].key == "trace_id" && fs[1].key == "span_id"
  {
    var trace := match StringValue(ctx, "trace_id")
      case Some(id) => [Field("trace_id", id)]
      case None => [];
    var span := match StringValue(ctx, "span_id")
      case Some(id) => [Field("span_id", id)]
      case None => [];
    trace + span
  }

  /** `WithContext`: the receiver itself when the context is nil or yields no trace field, otherwise `With` those fields. */
  function WithContext(l: Logger, ctx: Option<Context>): (r: Logger)
    ensures r.config == l.config && r.level == l.level && r.encoder == l.encoder && r.sink == l.sink
    ensures r == l <==> ctx.None? || (StringValue(ctx.value, "trace_id").None? && StringValue(ctx.value, "span_id").None?)
    ensures ctx.Some? ==> r.fields == l.fields + ExtractTraceFields(ctx.value)
  {
    match ctx
    case None => l
    case Some(c) =>
      var fields := ExtractTraceFields(c);
      if |fields| > 0 then With(l, fields) else l
  }
}

=== FILE: shutdown.dfy ===
/**
 * Graceful shutdown manager (package `graceful`).
 *
 * A manager holds a timeout and an append-only list of shutdown callbacks.
 * `Shutdown` copies the list, launches every callback concurrently in reverse
 * registration order under one shared deadline, waits for all of them or for
 * the deadline, logs "completed" or "timeout", closes the buffered error
 * channel the callbacks report into, and logs every error it still holds.
 *
 * Concurrency is replaced by an outcome oracle: for every snapshot position
 * it says with what result the callback there returns and in which phase of
 * `Shutdown` it does so. Durations are Go `time.Duration` values, i.e.
 * nanoseconds.
 */
module Graceful {
  import opened Wrappers
  import Log
  import Durations

  const DefaultTimeout := 30 * Durations.Second

  /**
   * A registered callback: an opaque function supplied by a caller, told
   * apart by `id`, or the wrapper `RegisterWithName` builds around one.
   */
  datatype Callback = Func(id: nat) | Named(component: string, fn: Callback)

  /** What a callback returns: nil or an error with its message. */
  datatype CallResult = Ok | Failed(err: string)

  /**
   * When a launched callback returns, relative to `Shutdown`'s own steps:
   * before the wait ends; after the wait ended but before the error channel
   * is closed; after the close while the process still runs; or only once the
   * process has exited, when its goroutine is gone and it sends nothing.
   */
  datatype Phase = InTime | BeforeClose | AfterClose | AfterExit

  /** The oracle's verdict on one launched callback. */
  datatype Outcome = Outcome(phase: Phase, result: CallResult)

  datatype LogEvent = LogEvent(level: Log.Level, msg: string, fields: seq<Log.Field>)

  const CompletedEvent := LogEvent(Log.InfoLevel, "graceful shutdown completed", [])
  const TimeoutEvent := LogEvent(Log.WarnLevel, "graceful shutdown timeout, forcing exit", [])

  /** The error line `Shutdown` writes for one drained error. */
  function ErrorEvent(err: string): LogEvent {
    LogEvent(Log.ErrorLevel, "shutdown error", [Log.Field("error", err)])
  }

  /** The info line a named callback writes before delegating. */
  function ComponentEvent(name: string): LogEvent {
    LogEvent(Log.InfoLevel, "shutting down component", [Log.Field("component", name)])
  }

  datatype Manager = Manager(timeout: int, callbacks: seq<Callback>)

  /**
   * One run of `Shutdown`: the snapshot it worked on, the order it launched
   * callbacks in, whether the wait completed, the errors it drained (in the
   * order it drained them), the lines it logged, whether some callback sent
   * on the closed error channel, which panics and crashes the process, and
   * whether some callback's send found the channel full and blocked for good.
   */
  datatype Session = Session(
    snapshot: seq<Callback>,
    launched: seq<Callback>,
    completed: bool,
    errors: seq<string>,
    logs: seq<LogEvent>,
    crashes: bool,
    stuck: bool)

  // ---------------------------------------------------------------------------
  // Reference definitions
  // ---------------------------------------------------------------------------

  function Reverse<T>(s: seq<T>): (r: seq<T>)
    ensures |r| == |s|
    ensures forall i :: 0 <= i < |s| ==> r[i] == s[|s| - 1 - i]
  {
    if |s| == 0 then [] else [s[|s| - 1]] + Reverse(s[..|s| - 1])
  }

  /** Every launched callback returned before the wait ended. */
  predicate AllInTime(outcomes: seq<Outcome>) {
    forall i :: 0 <= i < |outcomes| ==> outcomes[i].phase == InTime
  }

  /** Some callback returns an error in phase `ph`. */
  predicate FailsIn(outcomes: seq<Outcome>, ph: Phase) {
    exists i :: 0 <= i < |outcomes| && outcomes[i].phase == ph && outcomes[i].result.Failed?
  }

  /** Some callback returns an error after the channel was closed, while the process still runs. */
  predicate HasLateFailure(outcomes: seq<Outcome>) {
    FailsIn(outcomes, AfterClose)
  }

  /** The error one outcome sends in phase `ph`. */
  function SentIn(o: Outcome, ph: Phase): multiset<string> {
    if o.phase == ph && o.result.Failed? then multiset{o.result.err} else multiset{}
  }

  /** The errors sent in phase `ph`, one per callback that fails in that phase. */
  function Failures(outcomes: seq<Outcome>, ph: Phase): (r: multiset<string>)
    ensures |r| <= |outcomes|
  {
    if |outcomes| == 0 then multiset{} else SentIn(outcomes[0], ph) + Failures(outcomes[1..], ph)
  }

  /** The errors in the channel when `Shutdown` drains it: those sent before the close. */
  function FailuresBeforeClose(outcomes: seq<Outcome>): multiset<string> {
    Failures(outcomes, InTime) + Failures(outcomes, BeforeClose)
  }

  // ---------------------------------------------------------------------------
  // Buffered channels
  // ---------------------------------------------------------------------------

  /** A buffered Go channel of errors: its capacity, what it holds, and whether it was closed. */
  datatype Chan = Chan(capacity: nat, buffer: seq<string>, closed: bool)

  /** What a send does: it delivers into the buffer, blocks on a full open channel, or panics on a closed one. */
  datatype SendResult = Delivered(ch: Chan) | Blocks | Panics

  /** `make(chan error, capacity)`. */
  function MakeChan(capacity: nat): (ch: Chan)
    ensures ch.capacity == capacity && ch.buffer == [] && !ch.closed
  {
    Chan(capacity, [], false)
  }

  /** `ch <- err` under Go's channel rules. */
  function Send(ch: Chan, err: string): (r: SendResult)
    ensures r.Panics? <==> ch.closed
    ensures r.Blocks? <==> !ch.closed && |ch.buffer| >= ch.capacity
    ensures r.Delivered? ==> r.ch == ch.(buffer := ch.buffer + [err])
  {
    if ch.closed then Panics
    else if |ch.buffer| >= ch.capacity then Blocks
    else Delivered(ch.(buffer := ch.buffer + [err]))
  }

  /** `close(ch)`; Go panics on closing a channel twice, so callers close an open one. */
  function Close(ch: Chan): (r: Chan)
    requires !ch.closed
    ensures r.closed && r.capacity == ch.capacity && r.buffer == ch.buffer
  {
    ch.(closed := true)
  }

  // ---------------------------------------------------------------------------
  // Manager operations
  // ---------------------------------------------------------------------------

  /** `NewManager`: a non-positive timeout falls back to 30 seconds; no callbacks yet. */
  function NewManager(timeout: int): (m: Manager)
    ensures m.callbacks == []
    ensures m.timeout > 0
    ensures timeout > 0 ==> m.timeout == timeout
    ensures timeout <= 0 ==> m.timeout == 30 * Durations.Second
  {
    Manager(if timeout <= 0 then DefaultTimeout else timeout, [])
  }

  /** `Register`: appends exactly one callback at the end. */
  function Register(m: Manager, fn: Callback): (r: Manager)
    ensures r.timeout == m.timeout
    ensures |r.callbacks| == |m.callbacks| + 1
    ensures r.callbacks[..|m.callbacks|] == m.callbacks
    ensures r.callbacks[|m.callbacks|] == fn
  {
    m.(callbacks := m.callbacks + [fn])
  }

  /** `RegisterWithName`: registers the wrapper that logs `name` and then runs `fn`. */
  function RegisterWithName(m: Manager, name: string, fn: Callback): (r: Manager)
    ensures r.timeout == m.timeout
    ensures |r.callbacks| == |m.callbacks| + 1
    ensures r.callbacks[..|m.callbacks|] == m.callbacks
    ensures r.callbacks[|m.callbacks|] == Named(name, fn)
  {
    Register(m, Named(name, fn))
  }

  /** Registering the callbacks of `fns` one after another. */
  function RegisterAll(m: Manager, fns: seq<Callback>): Manager
    decreases |fns|
  {
    if |fns| == 0 then m else RegisterAll(Register(m, fns[0]), fns[1..])
  }

  /** Successive registrations lose nothing, duplicate nothing and keep their order. */
  lemma {:induction false} RegisterAllAppends(m: Manager, fns: seq<Callback>)
    ensures RegisterAll(m, fns).callbacks == m.callbacks + fns
    ensures RegisterAll(m, fns).timeout == m.timeout
    decreases |fns|
  {
    if |fns| > 0 {
      RegisterAllAppends(Register(m, fns[0]), fns[1..]);
      assert m.callbacks + [fns[0]] + fns[1..] == m.callbacks + fns;
    }
  }

  /**
   * Calling a callback with its underlying function's result `base`: each
   * name wrapper first logs its component, and the result is passed through
   * unchanged.
   */
  function Run(cb: Callback, base: CallResult): (r: (seq<LogEvent>, CallResult))
    ensures r.1 == base
    ensures cb.Named? ==> |r.0| >= 1 && r.0[0] == ComponentEvent(cb.component)
    ensures forall i :: 0 <= i < |r.0| ==> r.0[i].level == Log.InfoLevel && r.0[i].msg == "shutting down component"
  {
    match cb
    case Func(_) => ([], base)
    case Named(name, fn) =>
      var inner := Run(fn, base);
      ([ComponentEvent(name)] + inner.0, inner.1)
  }

  /** The callback `RegisterWithName` adds logs its component first and returns what `fn` returns. */
  lemma RegisterWithNameBehaviour(m: Manager, name: string, fn: Callback, base: CallResult)
    ensures var added := RegisterWithName(m, name, fn).callbacks[|m.callbacks|];
      && Run(added, base).1 == Run(fn, base).1
      && Run(added, base).0 == [ComponentEvent(name)] + Run(fn, base).0
  {
  }

  // ---------------------------------------------------------------------------
  // Shutdown
  // ---------------------------------------------------------------------------

  /** Launches the snapshot from its last entry to its first. */
  method LaunchAll(snapshot: seq<Callback>) returns (launched: seq<Callback>)
    ensures |launched| == |snapshot|
    ensures forall k :: 0 <= k < |snapshot| ==> launched[k] == snapshot[|snapshot| - 1 - k]
  {
    launched := [];
    var i := |snapshot|;
    while i > 0
      invariant 0 <= i <= |snapshot|
      invariant launched == Reverse(snapshot[i..])
    {
      i := i - 1;
      LaunchStep(snapshot, i);
      launched := launched + [snapshot[i]];
    }
    assert snapshot[0..] == snapshot;
  }

  /** Launching one more entry, the earlier one, extends the reversed suffix by it. */
  lemma LaunchStep<T>(s: seq<T>, i: int)
    requires 0 <= i < |s|
    ensures Reverse(s[i..]) == Reverse(s[i + 1..]) + [s[i]]
  {
  }

  /** The sends of phase `ph` on a closed channel: each panics, none changes the channel. */
  method SendClosed(ch: Chan, outcomes: seq<Outcome>, ph: Phase) returns (out: Chan, panics: bool, blocks: bool)
    requires ch.closed
    ensures out == ch && !blocks
    ensures panics <==> |Failures(outcomes, ph)| > 0
  {
    out, panics, blocks := ch, false, false;
    var i := |outcomes|;
    while i > 0
      invariant 0 <= i <= |outcomes|
      invariant out == ch && !blocks
      invariant panics <==> |Failures(outcomes[i..], ph)| > 0
    {
      i := i - 1;
      FailuresStep(outcomes, i, ph);
      var p, b;
      out, p, b := SendOne(out, outcomes[i], ph);
      panics := panics || p;
    }
    assert outcomes[0..] == outcomes;
  }

  /** The sends of phase `ph` on an open channel: with room for all of them, the buffer grows by exactly their errors. */
  method SendOpen(ch: Chan, outcomes: seq<Outcome>, ph: Phase) returns (out: Chan, added: seq<string>, panics: bool, blocks: bool)
    requires !ch.closed
    ensures out.capacity == ch.capacity && !out.closed && !panics
    ensures out.buffer == ch.buffer + added
    ensures |ch.buffer| + |Failures(outcomes, ph)| <= ch.capacity ==> !blocks && multiset(added) == Failures(outcomes, ph)
  {
    out, added, panics, blocks := ch, [], false, false;
    var i := |outcomes|;
    while i > 0
      invariant 0 <= i <= |outcomes|
      invariant out.capacity == ch.capacity && !out.closed && !panics
      invariant out.buffer == ch.buffer + added
      invariant !blocks ==> multiset(added) == Failures(outcomes[i..], ph)
      invariant |ch.buffer| + |Failures(outcomes[i..], ph)| <= ch.capacity ==> !blocks
    {
      i := i - 1;
      FailuresStep(outcomes, i, ph);
      var p, b, prev := false, false, out;
      out, p, b := SendOne(out, outcomes[i], ph);
      if |out.buffer| > |prev.buffer| {
        added := added + [outcomes[i].result.err];
      }
      panics, blocks := panics || p, blocks || b;
    }
    assert outcomes[0..] == outcomes;
  }

  /** The send of one callback, if it fails in phase `ph`. */
  method SendOne(ch: Chan, o: Outcome, ph: Phase) returns (out: Chan, panics: bool, blocks: bool)
    ensures out.capacity == ch.capacity && out.closed == ch.closed
    ensures panics <==> ch.closed && |SentIn(o, ph)| > 0
    ensures ch.closed ==> out == ch && !blocks
    ensures blocks ==> out == ch && |ch.buffer| >= ch.capacity && |SentIn(o, ph)| > 0
    ensures !ch.closed && !blocks && |SentIn(o, ph)| > 0 ==> out.buffer == ch.buffer + [o.result.err]
    ensures ch.closed || blocks || |SentIn(o, ph)| == 0 ==> out.buffer == ch.buffer
  {
    out, panics, blocks := ch, false, false;
    if o.phase == ph && o.result.Failed? {
      match Send(ch, o.result.err) {
        case Delivered(c) => out := c;
        case Blocks => blocks := true;
        case Panics => panics := true;
      }
    }
  }

  /** Counting the sends of a suffix one outcome further back adds that outcome's send. */
  lemma FailuresStep(outcomes: seq<Outcome>, i: int, ph: Phase)
    requires 0 <= i < |outcomes|
    ensures Failures(outcomes[i..], ph) == SentIn(outcomes[i], ph) + Failures(outcomes[i + 1..], ph)
    ensures |Failures(outcomes[i..], ph)| == |SentIn(outcomes[i], ph)| + |Failures(outcomes[i + 1..], ph)|
  {
    assert outcomes[i..][1..] == outcomes[i + 1..];
  }

  /** Drains the channel: one error line per buffered error, in channel order. */
  method Drain(buffered: seq<string>) returns (logs: seq<LogEvent>)
    ensures |logs| == |buffered|
    ensures forall k :: 0 <= k < |buffered| ==> logs[k] == ErrorEvent(buffered[k])
  {
    logs := [];
    var k := 0;
    while k < |buffered|
      invariant 0 <= k <= |buffered|
      invariant |logs| == k
      invariant forall j :: 0 <= j < k ==> logs[j] == ErrorEvent(buffered[j])
    {
      logs := logs + [ErrorEvent(buffered[k])];
      k := k + 1;
    }
  }

  /** The lines `Shutdown` logs after the wait: "completed" or "timeout", then one line per drained error. */
  method Report(completed: bool, drained: seq<string>) returns (logs: seq<LogEvent>)
    ensures |logs| == |drained| + 1
    ensures logs[0] == (if completed then CompletedEvent else TimeoutEvent)
    ensures forall k :: 0 <= k < |drained| ==> logs[k + 1] == ErrorEvent(drained[k])
  {
    var errorLogs := Drain(drained);
    logs := [if completed then CompletedEvent else TimeoutEvent] + errorLogs;
  }

  /**
   * The error channel up to the close: one slot per callback, filled by the
   * callbacks that fail before the wait ends or before the close. None of
   * these sends panics or blocks, and room is left for every later send.
   */
  method FillChannel(outcomes: seq<Outcome>) returns (ch: Chan, panics: bool, blocks: bool)
    ensures ch.capacity == |outcomes| && !ch.closed
    ensures multiset(ch.buffer) == FailuresBeforeClose(outcomes)
    ensures |ch.buffer| + |Failures(outcomes, AfterClose)| <= ch.capacity
    ensures !panics && !blocks
  {
    SendsFitCapacity(outcomes);
    var ch0 := MakeChan(|outcomes|);
    var ch1, a1, p1, b1 := SendOpen(ch0, outcomes, InTime);
    var ch2, a2, p2, b2 := SendOpen(ch1, outcomes, BeforeClose);
    assert ch2.buffer == a1 + a2;
    ch, panics, blocks := ch2, p1 || p2, b1 || b2;
  }

  /**
   * `Shutdown` as written. The channel has one slot per callback. Callbacks
   * that fail before the wait ends or before the close fill it; the close
   * then happens on both branches, and the drain logs what the channel holds.
   * A callback that fails after the close sends on the closed channel, which
   * panics.
   */
  method Shutdown(m: Manager, outcomes: seq<Outcome>) returns (s: Session)
    requires |outcomes| == |m.callbacks|
    ensures s.snapshot == m.callbacks
    ensures s.launched == Reverse(m.callbacks)
    ensures s.completed <==> AllInTime(outcomes)
    ensures multiset(s.errors) == FailuresBeforeClose(outcomes)
    ensures |s.logs| == |s.errors| + 1 <= |m.callbacks| + 1
    ensures s.logs[0] == (if s.completed then CompletedEvent else TimeoutEvent)
    ensures forall k :: 0 <= k < |s.errors| ==> s.logs[k + 1] == ErrorEvent(s.errors[k])
    ensures !s.stuck
    ensures s.crashes <==> HasLateFailure(outcomes)
  {
    var snapshot := m.callbacks;
    var launched := LaunchAll(snapshot);
    assert launched == Reverse(snapshot);
    var ch, p12, b12 := FillChannel(outcomes);
    var completed := AllInTime(outcomes);
    var closed := Close(ch);
    var logs := Report(completed, closed.buffer);
    var _, p3, b3 := SendClosed(closed, outcomes, AfterClose);
    FailuresNonEmpty(outcomes, AfterClose);
    s := Session(snapshot, launched, completed, closed.buffer, logs, p12 || p3, b12 || b3);
  }

  /**
   * `Shutdown` corrected: the channel is never closed, and the drain takes
   * only what the channel holds (a receive loop with a `default` exit).
   * A callback that fails later sends into the spare capacity and its error
   * is dropped. The late sends are checked against the channel as the drain
   * found it, which is the worst case for its capacity. Nothing crashes or
   * blocks, and the report is the same as before.
   */
  method ShutdownDrained(m: Manager, outcomes: seq<Outcome>) returns (s: Session)
    requires |outcomes| == |m.callbacks|
    ensures s.snapshot == m.callbacks
    ensures s.launched == Reverse(m.callbacks)
    ensures s.completed <==> AllInTime(outcomes)
    ensures multiset(s.errors) == FailuresBeforeClose(outcomes)
    ensures |s.logs| == |s.errors| + 1 <= |m.callbacks| + 1
    ensures s.logs[0] == (if s.completed then CompletedEvent else TimeoutEvent)
    ensures forall k :: 0 <= k < |s.errors| ==> s.logs[k + 1] == ErrorEvent(s.errors[k])
    ensures !s.stuck
    ensures !s.crashes
  {
    var snapshot := m.callbacks;
    var launched := LaunchAll(snapshot);
    assert launched == Reverse(snapshot);
    var ch, p12, b12 := FillChannel(outcomes);
    var completed := AllInTime(outcomes);
    var logs := Report(completed, ch.buffer);
    var _, _, p3, b3 := SendOpen(ch, outcomes, AfterClose);
    s := Session(snapshot, launched, completed, ch.buffer, logs, p12 || p3, b12 || b3);
  }

  /** Each callback sends at most once, so all sends together fit a channel with one slot per callback. */
  lemma {:induction false} SendsFitCapacity(outcomes: seq<Outcome>)
    ensures |Failures(outcomes, InTime)| + |Failures(outcomes, BeforeClose)| + |Failures(outcomes, AfterClose)| <= |outcomes|
  {
    if |outcomes| > 0 {
      SendsFitCapacity(outcomes[1..]);
    }
  }

  /** A phase sends some error exactly when some callback fails in it. */
  lemma {:induction false} FailuresNonEmpty(outcomes: seq<Outcome>, ph: Phase)
    ensures |Failures(outcomes, ph)| > 0 <==> FailsIn(outcomes, ph)
  {
    if |outcomes| > 0 {
      var tail := outcomes[1..];
      FailuresNonEmpty(tail, ph);
      assert |Failures(outcomes, ph)| == |SentIn(outcomes[0], ph)| + |Failures(tail, ph)|;
      if FailsIn(tail, ph) {
        var i :| 0 <= i < |tail| && tail[i].phase == ph && tail[i].result.Failed?;
        assert outcomes[i + 1] == tail[i];
      }
      if FailsIn(outcomes, ph) {
        var i :| 0 <= i < |outcomes| && outcomes[i].phase == ph && outcomes[i].result.Failed?;
        if i > 0 {
          assert tail[i - 1] == outcomes[i];
        }
      }
    }
  }

  /**
   * The concrete input that crashes the code as written: one callback that
   * ignores the deadline and returns "disconnect failed" after the close.
   */
  method LateFailureScenario() returns (s: Session)
    ensures !s.completed && |s.logs| == 1 && s.logs[0] == TimeoutEvent
    ensures s.crashes
  {
    var m := Register(NewManager(Durations.Second), Func(0));
    var outcomes := [Outcome(AfterClose, Failed("disconnect failed"))];
    assert outcomes[0].phase == AfterClose && outcomes[0].result.Failed?;
    assert FailuresBeforeClose(outcomes) == multiset{};
    s := Shutdown(m, outcomes);
  }

  /**
   * The same failure landing between the end of the wait and the close is
   * buffered and logged, and nothing crashes.
   */
  method BeforeCloseScenario() returns (s: Session)
    ensures !s.completed && s.errors == ["disconnect failed"]
    ensures s.logs == [TimeoutEvent, ErrorEvent("disconnect failed")]
    ensures !s.crashes
  {
    var m := Register(NewManager(Durations.Second), Func(0));
    var outcomes := [Outcome(BeforeClose, Failed("disconnect failed"))];
    assert outcomes[0].phase != InTime;
    assert outcomes[1..] == [];
    assert FailuresBeforeClose(outcomes) == multiset{"disconnect failed"};
    assert !FailsIn(outcomes, AfterClose);
    s := Shutdown(m, outcomes);
    assert multiset(s.errors) == multiset{"disconnect failed"};
    assert |s.errors| == 1;
    assert s.errors[0] in multiset(s.errors);
  }

  /** A late failure forces the timeout branch. */
  lemma LateFailureMeansTimeout(outcomes: seq<Outcome>)
    requires HasLateFailure(outcomes)
    ensures !AllInTime(outcomes)
  {
  }

  /** With no failing callback no phase sends anything. */
  lemma {:induction false} NoFailuresNoErrors(outcomes: seq<Outcome>, ph: Phase)
    requires forall i :: 0 <= i < |outcomes| ==> outcomes[i].result.Ok?
    ensures Failures(outcomes, ph) == multiset{}
  {
    if |outcomes| > 0 {
      NoFailuresNoErrors(outcomes[1..], ph);
    }
  }

  /** Exactly one failure in time, everything else succeeding in time: one error, and the wait completes. */
  lemma {:induction false} SingleFailure(outcomes: seq<Outcome>, j: int, err: string)
    requires 0 <= j < |outcomes| && outcomes[j] == Outcome(InTime, Failed(err))
    requires forall i :: 0 <= i < |outcomes| && i != j ==> outcomes[i] == Outcome(InTime, Ok)
    ensures AllInTime(outcomes)
    ensures Failures(outcomes, InTime) == multiset{err}
    ensures Failures(outcomes, BeforeClose) == multiset{}
  {
    var tail := outcomes[1..];
    if j == 0 {
      forall i | 0 <= i < |tail|
        ensures tail[i].result.Ok?
      {
        assert tail[i] == outcomes[i + 1];
      }
      NoFailuresNoErrors(tail, InTime);
      NoFailuresNoErrors(tail, BeforeClose);
    } else {
      forall i | 0 <= i < |tail| && i != j - 1
        ensures tail[i] == Outcome(InTime, Ok)
      {
        assert tail[i] == outcomes[i + 1];
      }
      SingleFailure(tail, j - 1, err);
      assert SentIn(outcomes[0], InTime) == multiset{};
    }
  }

  /** An error is sent in phase `ph` exactly when some callback returns it in that phase. */
  lemma {:induction false} FailuresMembers(outcomes: seq<Outcome>, ph: Phase, err: string)
    ensures err in Failures(outcomes, ph) <==>
      exists i :: 0 <= i < |outcomes| && outcomes[i] == Outcome(ph, Failed(err))
  {
    if |outcomes| > 0 {
      FailuresMembers(outcomes[1..], ph, err);
      if err in Failures(outcomes[1..], ph) {
        var i :| 0 <= i < |outcomes[1..]| && outcomes[1..][i] == Outcome(ph, Failed(err));
        assert outcomes[i + 1] == Outcome(ph, Failed(err));
      }
      if exists i :: 0 <= i < |outcomes| && outcomes[i] == Outcome(ph, Failed(err)) {
        var i :| 0 <= i < |outcomes| && outcomes[i] == Outcome(ph, Failed(err));
        if i > 0 {
          assert outcomes[1..][i - 1] == Outcome(ph, Failed(err));
        }
      }
    }
  }

  /** Launch order is registration order reversed: each entry exactly once, the last registered first. */
  lemma {:induction false} LaunchOrderIsPermutation(snapshot: seq<Callback>)
    ensures multiset(Reverse(snapshot)) == multiset(snapshot)
    ensures |snapshot| > 0 ==> Reverse(snapshot)[0] == snapshot[|snapshot| - 1]
  {
    if |snapshot| > 0 {
      var init := snapshot[..|snapshot| - 1];
      LaunchOrderIsPermutation(init);
      assert Reverse(snapshot) == [snapshot[|snapshot| - 1]] + Reverse(init);
      assert snapshot == init + [snapshot[|snapshot| - 1]];
    }
  }

  // ---------------------------------------------------------------------------
  // Signal wait and the process-wide hook
  // ---------------------------------------------------------------------------

  /**
   * `Wait` once the signal `sig` has arrived: logs it and runs `Shutdown` as
   * written. The blocking wait itself is outside the model.
   */
  method Wait(m: Manager, sig: string, outcomes: seq<Outcome>) returns (s: Session, logs: seq<LogEvent>)
    requires |outcomes| == |m.callbacks|
    ensures |logs| == |s.logs| + 1 >= 2
    ensures logs[0] == LogEvent(Log.InfoLevel, "received shutdown signal", [Log.Field("signal", sig)])
    ensures logs[1..] == s.logs
    ensures s.logs[0] == (if s.completed then CompletedEvent else TimeoutEvent)
    ensures |s.logs| == |s.errors| + 1
    ensures forall k :: 0 <= k < |s.errors| ==> s.logs[k + 1] == ErrorEvent(s.errors[k])
    ensures s.snapshot == m.callbacks
    ensures s.launched == Reverse(m.callbacks)
    ensures s.completed <==> AllInTime(outcomes)
    ensures multiset(s.errors) == FailuresBeforeClose(outcomes)
    ensures !s.stuck
    ensures s.crashes <==> HasLateFailure(outcomes)
  {
    s := Shutdown(m, outcomes);
    logs := [LogEvent(Log.InfoLevel, "received shutdown signal", [Log.Field("signal", sig)])] + s.logs;
  }

  /** The process-wide hook: no manager until the first setup. */
  datatype Hook = Hook(manager: Option<Manager>)

  /** `SetupGracefulShutdown`: the first call builds the manager, every later call returns it untouched. */
  function Setup(h: Hook, timeout: int): (r: (Hook, Manager))
    ensures r.0.manager == Some(r.1)
    ensures h.manager.Some? ==> r.0 == h && r.1 == h.manager.value
    ensures h.manager.None? ==> r.1 == NewManager(timeout)
  {
    match h.manager
    case Some(m) => (h, m)
    case None =>
      var m := NewManager(timeout);
      (Hook(Some(m)), m)
  }

  /** Two setups in a row give the same manager, carrying the first call's timeout. */
  lemma SetupFirstCallWins(t1: int, t2: int)
    ensures var (h1, m1) := Setup(Hook(None), t1);
      var (h2, m2) := Setup(h1, t2);
      m1 == m2 && h2 == h1 && m2.timeout == NewManager(t1).timeout
  {
  }

  /** Package `Register`: delegates to the shared manager, a no-op before setup. */
  function PackageRegister(h: Hook, fn: Callback): (r: Hook)
    ensures h.manager.None? ==> r == h
    ensures h.manager.Some? ==> r.manager == Some(Register(h.manager.value, fn))
  {
    match h.manager
    case None => h
    case Some(m) => Hook(Some(Register(m, fn)))
  }

  /** Package `RegisterWithName`: delegates to the shared manager, a no-op before setup. */
  function PackageRegisterWithName(h: Hook, name: string, fn: Callback): (r: Hook)
    ensures h.manager.None? ==> r == h
    ensures h.manager.Some? ==> r.manager == Some(RegisterWithName(h.manager.value, name, fn))
  {
    match h.manager
    case None => h
    case Some(m) => Hook(Some(RegisterWithName(m, name, fn)))
  }

  /**
   * Package `Wait`: nothing happens before setup; otherwise the shared manager
   * waits and shuts down, with everything `Wait` promises, the crash included.
   */
  method PackageWait(h: Hook, sig: string, outcomes: seq<Outcome>) returns (r: Option<(Session, seq<LogEvent>)>)
    requires h.manager.Some? ==> |outcomes| == |h.manager.value.callbacks|
    ensures h.manager.None? <==> r.None?
    ensures r.Some? ==> r.value.0.snapshot == h.manager.value.callbacks
    ensures r.Some? ==> r.value.0.launched == Reverse(h.manager.value.callbacks)
    ensures r.Some? ==> (r.value.0.completed <==> AllInTime(outcomes))
    ensures r.Some? ==> r.value.1 == [LogEvent(Log.InfoLevel, "received shutdown signal", [Log.Field("signal", sig)])] + r.value.0.logs
    ensures r.Some? ==> |r.value.0.logs| == |r.value.0.errors| + 1
    ensures r.Some? ==> r.value.0.logs[0] == (if AllInTime(outcomes) then CompletedEvent else TimeoutEvent)
    ensures r.Some? ==> forall k :: 0 <= k < |r.value.0.errors| ==> r.value.0.logs[k + 1] == ErrorEvent(r.value.0.errors[k])
    ensures r.Some? ==> multiset(r.value.0.errors) == FailuresBeforeClose(outcomes)
    ensures r.Some? ==> !r.value.0.stuck
    ensures r.Some? ==> (r.value.0.crashes <==> HasLateFailure(outcomes))
  {
    match h.manager {
      case None =>
        r := None;
      case Some(m) =>
        var s, l := Wait(m, sig, outcomes);
        r := Some((s, l));
    }
  }
}

=== FILE: wrappers.dfy ===
/** The optional-value datatype used throughout the model in place of Go's nil values. */
module Wrappers {

  datatype Option<+T> = None | Some(value: T) {

    /** Returns the value held in Some, or the given default for None. */
    function GetOr(default: T): T {
      match this
      case Some(v) => v
      case None => default
    }
  }
}
